=== FILE: README.md ===
# MEKA evaluation driver: a Dafny model

This project models the decision and data-shaping logic of MEKA's evaluation
driver, `meka.classifiers.multilabel.Evaluation`. MEKA is a multi-label and
multi-target extension of Weka. The model covers four parts.

- **Split planner** (module `Splitter`): how `runExperiment` chooses the
  training count N_T. The count comes from a percentage, from an absolute
  number, or from the default 60%. The planner cuts the dataset into
  `D[0..N_T)` and `D[N_T..N)` and optionally swaps the two sets.
- **Tester** (module `Tester`): `testClassifier` masks the first L label
  values of each test instance before it queries the classifier. For a
  multi-target classifier it keeps entries `[L, 2L)` of the answer. It stores
  one row per instance, holding the prediction and the unmasked true labels.
  The batched `testClassifierM` copies the classifier's batch answer row by
  row. A classifier that is not threaded gets a Result with no rows.
- **Predictions export** (module `Export`): each test instance is copied and
  its label fields are overwritten with the rounded predictions. A
  multi-target classifier's answer goes through the same `[L, 2L)` slice,
  based on the test set's class index.
- **Result annotation and orchestration** (modules `Annotation` and
  `Evaluation`):
  - `isMT`;
  - the `MT` / `ML` / `MT-CV` / `ML-CV` type tags;
  - the cross-validation threshold fallback to 0.5;
  - the reset of both instance counts to the full dataset size after
    cross-validation;
  - the fold loop;
  - the single-split run: the empty-side fallback to the full dataset, and
    which dataset the classifier ends up built on.

The classifier is a value of type `Classifiers.Learner`. It carries the
interfaces it implements (multi-target, multi-label, threaded) and a build
function. The build function returns a `Model` holding `predict` and
`predictBatch`. A Java exception becomes `Outcomes.Failure`. Some
collaborators lie outside the driver: `Double.parseDouble`,
`MLEvalUtils.getThreshold`, Weka's `trainCV`/`testCV` and
`MLEvalUtils.combinePredictions`. They are passed in as functions in
`Evaluation.Externals`. `Arrays.copyOfRange` and `Math.round` are written
out with their Java edge cases in `JavaLib`. `copyOfRange` pads with zeros
past the end of its input and throws when the start lies beyond it.

Some behaviour of the code as written is kept deliberately:
- The export path queries the classifier on the unmasked test instance (line 306).
- The batched tester hands the classifier the whole test set with its labels
  intact (line 642). It also does no multi-target slicing.
- The threaded evaluation records the set sizes under "N_train" / "N_test".
  The other paths use "Number of training instances" / "Number of test instances".

`Tester.TestClassifierM` and `Export.ExportRow` state these behaviours in
their contracts. `Tester.BatchedAgreesWithSingle` gives the condition under
which the batched path and the one-instance-at-a-time path store the same rows.

Two more behaviours of the code worth noting:
- A pre-loaded model does not take precedence. `lname` is set to `null` at
  line 161 and never assigned, so the branch at lines 259-273 cannot run. A
  model loaded with `-l` still goes through the build-and-evaluate path.
- A split count outside `[0, N]` is not clamped. It makes Weka's range-copy
  constructor throw, and `SplitAt` returns a `Failure` for it.

## Model

| member | source | states |
|---|---|---|
| JavaLib.Round | src/main/java/meka/classifiers/multilabel/Evaluation.java:312 | `Math.round` gives the integer within half a unit of its argument; a half rounds up |
| JavaLib.CopyOfRange | src/main/java/meka/classifiers/multilabel/Evaluation.java:610-611 | `copyOfRange` succeeds exactly when `0 <= from <= |y|` and `from <= to`. Its result has length `to - from` and holds `y[from + k]`, or 0.0 past the end of `y` |
| JavaLib.CopySecondHalf | src/main/java/meka/classifiers/multilabel/Evaluation.java:610-611 | slicing `[L, 2L)` out of a vector `a + b` whose halves both have length L gives exactly `b` |
| Splitter.TrainCount | src/main/java/meka/classifiers/multilabel/Evaluation.java:234-243 | a percentage takes precedence and gives N·P/100 rounded half up; otherwise a given number is used as is; otherwise the count is floor(0.6·N) |
| Splitter.SplitAt | src/main/java/meka/classifiers/multilabel/Evaluation.java:245-247 | succeeds exactly when `0 <= N_T <= N`. The training set has N_T instances, the two sets concatenate back to the dataset in order, and both keep its header |
| Splitter.PlanSplit | src/main/java/meka/classifiers/multilabel/Evaluation.java:220-255 | a given test file is used as is. Otherwise the dataset is cut at `TrainCount`, failing exactly when the count is out of range. Inversion swaps which piece is the training set |
| Splitter.PiecesArePrefixAndSuffix | src/main/java/meka/classifiers/multilabel/Evaluation.java:245-247 | for `0 <= N_T <= N` the pieces are exactly `D[0..N_T)` and `D[N_T..N)`, and their sizes sum to N |
| Splitter.InversionSwapsExactly | src/main/java/meka/classifiers/multilabel/Evaluation.java:250-255 | the inverted plan succeeds exactly when the plain one does and is the plain plan with the two sets swapped |
| Splitter.InvertTwice | src/main/java/meka/classifiers/multilabel/Evaluation.java:251-255 | inverting twice is the identity |
| Splitter.HundredAtSixtyPercent | src/main/java/meka/classifiers/multilabel/Evaluation.java:234-247 | N = 100 at 60% gives 60 training and 40 test instances |
| Tester.Mask | src/main/java/meka/classifiers/multilabel/Evaluation.java:602-605 | the masked copy has values `0..L-1` equal to 0.0 and every other value unchanged |
| Tester.MaskHidesLabels | src/main/java/meka/classifiers/multilabel/Evaluation.java:602-605 | instances that agree beyond the labels mask to the same vector, and masking is idempotent |
| Tester.TestRows | src/main/java/meka/classifiers/multilabel/Evaluation.java:598-615 | the loop succeeds exactly when every instance does. It yields one row per instance in input order: that instance's prediction and its first L values |
| Tester.TestClassifier | src/main/java/meka/classifiers/multilabel/Evaluation.java:592-628 | one row per test instance, in order. Each truth row is the unmasked instance's labels. Each prediction is the classifier's answer on the masked instance, cut to `[L, 2L)` for a multi-target classifier. A multi-target answer shorter than 2L is padded with 0.0. It fails exactly when an instance is shorter than L or a multi-target answer is shorter than L |
| Tester.PredictionsIgnoreTrueLabels | src/main/java/meka/classifiers/multilabel/Evaluation.java:602-611 | no leakage: test sets that differ only in label values give the same success and the same prediction rows |
| Tester.TestClassifierM | src/main/java/meka/classifiers/multilabel/Evaluation.java:635-662 | a classifier that is not threaded yields an empty Result. A threaded one yields row i equal to batch answer i, on the unmasked test set. It fails when the batch has fewer rows than the test set |
| Tester.BatchedAgreesWithSingle | src/main/java/meka/classifiers/multilabel/Evaluation.java:635-662 | when each batch answer equals the single answer on the masked instance, the batched and single paths give the same Result for a multi-label classifier |
| Tester.MultiTargetScenario | src/main/java/meka/classifiers/multilabel/Evaluation.java:608-611 | a multi-target answer `[0.2, 0.8, 1, 0]` with L = 2 is stored as `[1, 0]` |
| Export.ExportRow | src/main/java/meka/classifiers/multilabel/Evaluation.java:306-313 | the exported copy keeps the instance's length. Its first entries are the rounded predictions on the unmasked instance, cut to `[L, 2L)` for a multi-target classifier, and the rest is unchanged. It fails when the vector is longer than the instance or a multi-target answer is shorter than L |
| Export.ExportPredictions | src/main/java/meka/classifiers/multilabel/Evaluation.java:303-314 | the exported dataset keeps the test header and has one exported row per test instance, in order. It succeeds exactly when every row does |
| Export.ExportRoundsTesterPredictions | src/main/java/meka/classifiers/multilabel/Evaluation.java:305-313 | for a classifier blind to label values, the export writes back the tester's stored predictions, rounded, using the same slice |
| Annotation.IsMT | src/main/java/meka/classifiers/multilabel/Evaluation.java:348-364 | true exactly when some label among the first L is nominal with more than 2 values. The warned indices are the non-nominal labels before the first such one, in increasing order, and are exactly `WarnedLabels` |
| Annotation.WarnedLabelsFrom | src/main/java/meka/classifiers/multilabel/Evaluation.java:351-363 | the labels warned about from index j on are exactly the non-nominal labels in `[j, L)` with no multi-class label between j and them, in increasing order |
| Annotation.WarnedLabels | src/main/java/meka/classifiers/multilabel/Evaluation.java:351-363 | the labels `isMT` warns about are exactly the non-nominal labels with no multi-class label before them |
| Annotation.TypeTag | src/main/java/meka/classifiers/multilabel/Evaluation.java:389-395 | "MT" exactly for a multi-target classifier or multi-target test data. Otherwise "ML" exactly for a multi-label classifier, and otherwise no tag |
| Annotation.AnnotateCV | src/main/java/meka/classifiers/multilabel/Evaluation.java:469-485 | the tag is "MT-CV" exactly when the classifier or the dataset is multi-target, else "ML-CV". Only "ML-CV" sets a threshold: the parsed number, or 0.5. Both counts become N, and rows and other entries are unchanged |
| Annotation.ThresholdScenarios | src/main/java/meka/classifiers/multilabel/Evaluation.java:474-479 | the default option "PCut1" falls back to 0.5, and "0.5" gives 0.5 |
| Evaluation.EvaluateRaw | src/main/java/meka/classifiers/multilabel/Evaluation.java:498-537 | succeeds exactly when building and testing do. It carries the tester's rows and records the training and test set sizes |
| Evaluation.EvaluateModel | src/main/java/meka/classifiers/multilabel/Evaluation.java:387-399 | succeeds exactly when the raw evaluation does and, for an "ML" result, threshold calibration does too. The raw rows and counts are unchanged. The type follows `TypeTag`, a calibrated threshold is present exactly for "ML", and the verbosity is recorded |
| Evaluation.EvaluateBuilt | src/main/java/meka/classifiers/multilabel/Evaluation.java:409-421 | an already-built classifier's test rows, with the tag from `TypeTag` and the given threshold and verbosity recorded as they are |
| Evaluation.EvaluateModelM | src/main/java/meka/classifiers/multilabel/Evaluation.java:543-584 | succeeds exactly when building, the batched tester and threshold calibration all do. It carries the batched tester's prediction and truth rows, so none for a classifier that is not threaded. The sizes go under "N_train"/"N_test", the tag follows `TypeTag`, and the threshold is always the calibration of the stored predictions on the training set |
| Evaluation.RunFolds | src/main/java/meka/classifiers/multilabel/Evaluation.java:459-467 | succeeds exactly when every fold's training and test sets are generated and the fold builds and tests. Record j holds fold i+j's generated sets and raw result, in increasing fold order |
| Evaluation.FoldMap | src/main/java/meka/classifiers/multilabel/Evaluation.java:465-466 | fold i is recorded under key i, and only fold numbers are keys |
| Evaluation.CvModel | src/main/java/meka/classifiers/multilabel/Evaluation.java:458-487 | fails for a negative fold count. Otherwise it succeeds exactly when every fold does and the combination does. The result is `AnnotateCV` of the fold results combined in fold order, with both counts equal to N. The per-fold map holds every fold when asked for and is empty otherwise. The warnings are one `isMT` warning per `WarnedLabels` entry when the classifier is not multi-target, then the 0.5 fallback warning exactly when the tag is "ML-CV" and the threshold option is not a number |
| Evaluation.TooFewInstancesForFolds | src/main/java/meka/classifiers/multilabel/Evaluation.java:461-462 | when Weka's fold generation rejects fewer than two folds or more folds than instances, a cross-validation run with such a fold count fails, so the default 10 folds fail on fewer than 10 instances |
| Evaluation.NonNominalLabelWarnsInCv | src/main/java/meka/classifiers/multilabel/Evaluation.java:458-479 | a classifier that is not multi-target on data whose one label is non-nominal, with threshold option "0.5", prints exactly one warning, the `isMT` one |
| Evaluation.Decide | src/main/java/meka/classifiers/multilabel/Evaluation.java:274-292 | evaluation happens exactly when it is enabled and both sides are non-empty. Otherwise the build is on the training set, or on the full dataset when a side is empty |
| Evaluation.RunSplit | src/main/java/meka/classifiers/multilabel/Evaluation.java:217-325 | succeeds exactly when the split is in range, the classifier builds on the dataset it ends up built on, the evaluation succeeds if it runs, and the export succeeds if asked for. A Result exists and is printed exactly when evaluation is on and both sides are non-empty. It comes from the threaded or plain evaluation as configured. The classifier ends up built on the training set or the full dataset, and the export uses that build on the test set |
| Evaluation.RunExperiment | src/main/java/meka/classifiers/multilabel/Evaluation.java:141-217 | zero labels is an error. Cross-validation takes precedence and defaults to 10 folds. It succeeds exactly when `CvModel` does and passes on its Result and per-fold map. A request for predictions adds a warning before the run's own. Otherwise the single-split run is used |
| Evaluation.EmptySideFallsBackToFullDataset | src/main/java/meka/classifiers/multilabel/Evaluation.java:276-300 | with an empty side there is no Result and nothing is printed, and the classifier is built on the full dataset |
| Evaluation.SplitEvaluationProduced | src/main/java/meka/classifiers/multilabel/Evaluation.java:276-299 | with both sides non-empty and evaluation on, a successful evaluation, and a successful export when one is asked for, make the run succeed. Its Result is that evaluation's and is printed |
| Evaluation.ThreadedSplitResult | src/main/java/meka/classifiers/multilabel/Evaluation.java:276-299 | with both sides non-empty and evaluation on, a threaded run's printed Result has one row per test instance for a threaded classifier, with the instances' labels as truth rows. A classifier that is not threaded gets no rows |
| Evaluation.SplitResultCoversTestSet | src/main/java/meka/classifiers/multilabel/Evaluation.java:276-299 | with both sides non-empty and evaluation on, a non-threaded run's printed Result has one row per test instance, whose truth rows are that instance's labels |
| Evaluation.FoldsRecordedInOrder | src/main/java/meka/classifiers/multilabel/Evaluation.java:459-468 | fold j's raw result is the j-th input to the combination and is stored under key j |

## Left out

- Command-line parsing and help text (lines 93-122, 767-815). The model takes the options already parsed in `Evaluation.Config`. A malformed number, which throws NumberFormatException in the source, is not represented.
- The `-C` override of the label count (lines 135-138) and `MLUtils.prepareData`. The dataset arrives with its class index already set.
- Dataset loading and its file checks (lines 709-733), and the cross-validation output-directory checks (lines 191-197). These are file-system I/O.
- Writing results, fold files and predictions files (lines 202-214, 315-323), and model (de)serialization (lines 163-168, 327-331). These are I/O. The export is modelled up to the dataset it would write.
- The unreachable loaded-model branch (lines 259-273). `lname` is never assigned.
- Randomisation of the dataset order (lines 148-152). It depends on a random number generator.
- Semi-supervised introduction of unlabelled data (lines 501-504). `Learner.build` sees only the training set, so a semi-supervised classifier's use of the label-stripped test set is not represented.
- Timing values, label-cardinality values, classifier name, options, description, dataset name and model text (lines 518-534, 561-571). These are wall-clock readings and calls into the classifier and MLUtils.
- The "Number of labels (L)" info entry (line 529), the training set's class index written as a decimal string. The model has no integer-to-string conversion, so the Result's info map holds only the entries the annotations add.
- Weka's fold generation (`trainCV`/`testCV`, lines 461-462) and `MLEvalUtils.combinePredictions` (line 468). These are external functions passed in `Evaluation.Externals` that may fail. The model does not state that the test folds partition the dataset or that the combined Result has N rows. Weka's rule that fewer than two folds or more folds than instances throws is stated as the predicate `Evaluation.WekaFoldChecks`, not built into the functions.
- Threshold calibration (`MLEvalUtils.getThreshold`, lines 394 and 580) and `Double.parseDouble` (line 475). These are external functions passed in `Evaluation.Externals`.
- `Result.getStats` and the report text (lines 397, 419, 482, 582). They belong to the statistics engine.
- Debug printing and the progress bar (lines 124, 257, 463, 597-600, 616, 639, 648). They are output only.
- Output printed before a later exception. The cross-validation predictions warning (line 187) is printed even when `cvModel` then throws. The single-split report (line 299) is printed before an export that throws (lines 303-323). A `Failure` in the model carries no output, so `Evaluation.RunExperiment` and `Evaluation.RunSplit` report their warnings and the printed flag only for runs that succeed.
- `System.exit` (lines 333-339). The top level returns an `Outcome` instead.
- `setThreaded(true)` (line 641). It changes the classifier's internal state.
- The convenience overloads with default verbosity "1" and no per-fold map (lines 374-376, 431-446).
- The classifier's own exceptions from `distributionForInstance`. `Model.predict` is total; only `buildClassifier` may fail.
- Splitter.TrainCount: computes the percentage split over exact reals. The source computes `N * (P / 100.0)` in double precision and truncates the rounded `long` to `int`. The default `(int)(N * 0.60)` is modelled as `(N * 6) / 10`.
- JavaLib.Round: does not model NaN, infinities or the clipping of `Math.round` to the `long` range.
- JavaLib.CopyOfRange: the slice end `2 * L` is an unbounded integer. The source's `int` multiplication cannot overflow for any realistic label count.
- The class index is a `nat`. The training set's index is checked at line 142, where `runExperiment` rejects `L <= 0`. A test file's index is set by `MLUtils.prepareData` at line 226 and is not checked, and the `-C` override at line 137 applies to the training set only. The model takes the test set's index as a `nat` below the attribute count (`Evaluation.HeadersWellFormed`), so an unset -1 there, which `testClassifier`, `isMT` and the export would read, is not represented.
- Annotation.IsMT: requires the class index to be below the attribute count, which Weka's `setClassIndex` enforces.
- Tester.TestRows: how `Result.addResult` turns an instance into its true-label row is not visible here. The model stores the instance's first L values.
- Evaluation.RunSplit: does not record the warnings `isMT` prints when the single-split evaluations call it (lines 389, 411, 574). Only the cross-validation run records its warnings.

=== FILE: annotation.dfy ===
/** The decisions that annotate a Result: whether the data is multi-target,
    which type tag a Result gets, and the cross-validation threshold fallback
    and count reset. */
module Annotation {
  import opened Outcomes
  import opened Data
  import opened Results
  import opened Classifiers

  /** A nominal attribute with more than two values: a multi-class target. */
  predicate MultiClass(a: Attribute) {
    a.Nominal? && a.numValues > 2
  }

  /** Some label attribute among the first L is multi-class. */
  predicate MultiTargetData(d: Dataset)
    requires d.WellFormedHeader()
  {
    exists j :: 0 <= j < d.classIndex && MultiClass(d.attributes[j])
  }

  /** No multi-class label before index `j`. */
  predicate NoMultiClassBefore(d: Dataset, j: nat)
    requires j <= |d.attributes|
  {
    forall i :: 0 <= i < j ==> !MultiClass(d.attributes[i])
  }

  /** No multi-class label at an index in `[j, i)`. */
  predicate NoMultiClassBetween(d: Dataset, j: nat, i: nat)
    requires i <= |d.attributes|
  {
    forall x :: j <= x < i ==> !MultiClass(d.attributes[x])
  }

  /** The labels from index `j` on that `isMT` warns about, in scan order: the
      non-nominal ones met before the scan stops at a multi-class label. */
  function WarnedLabelsFrom(d: Dataset, j: nat): (w: seq<nat>)
    requires d.WellFormedHeader() && j <= d.classIndex
    ensures forall k, k' :: 0 <= k < k' < |w| ==> w[k] < w[k']
    ensures forall i: nat :: i in w <==>
      j <= i < d.classIndex && d.attributes[i].NonNominal? && NoMultiClassBetween(d, j, i)
    decreases d.classIndex - j
  {
    if j == d.classIndex then []
    else if MultiClass(d.attributes[j]) then []
    else if d.attributes[j].NonNominal? then
      var rest := WarnedLabelsFrom(d, j + 1);
      assert forall k :: 0 <= k < |rest| ==> rest[k] in rest;
      [j] + rest
    else WarnedLabelsFrom(d, j + 1)
  }

  /** The labels `isMT` warns about, in the order it warns. */
  function WarnedLabels(d: Dataset): (w: seq<nat>)
    requires d.WellFormedHeader()
    ensures forall i: nat :: i in w <==>
      i < d.classIndex && d.attributes[i].NonNominal? && NoMultiClassBefore(d, i)
  {
    WarnedLabelsFrom(d, 0)
  }

  /** `isMT`: scans the label attributes in order and answers true at the first
      multi-class one. Every non-nominal label met before that point only draws
      a warning; `warned` lists those indices in the order they were reported. */
  method IsMT(d: Dataset) returns (mt: bool, warned: seq<nat>)
    requires d.WellFormedHeader()
    ensures mt <==> MultiTargetData(d)
    ensures forall k, k' :: 0 <= k < k' < |warned| ==> warned[k] < warned[k']
    ensures forall j: nat :: j in warned <==>
      j < d.classIndex && d.attributes[j].NonNominal? && NoMultiClassBefore(d, j)
    ensures warned == WarnedLabels(d)
  {
    warned := [];
    var j := 0;
    while j < d.classIndex
      invariant 0 <= j <= d.classIndex
      invariant NoMultiClassBefore(d, j)
      invariant warned + WarnedLabelsFrom(d, j) == WarnedLabels(d)
    {
      if d.attributes[j].Nominal? {
        if d.attributes[j].numValues > 2 {
          assert warned + [] == warned;
          return true, warned;
        }
      } else {
        assert (warned + [j]) + WarnedLabelsFrom(d, j + 1) == warned + WarnedLabelsFrom(d, j);
        warned := warned + [j];
      }
      j := j + 1;
    }
    assert warned + [] == warned;
    return false, warned;
  }

  /** The type tag of a single-split Result: "MT" for a multi-target
      classifier or multi-target test data, otherwise "ML" for a multi-label
      classifier, otherwise none. */
  function TypeTag(h: Learner, test: Dataset): (t: Option<string>)
    requires test.WellFormedHeader()
    ensures t == Some("MT") <==> h.multiTarget || MultiTargetData(test)
    ensures t == Some("ML") <==> !h.multiTarget && !MultiTargetData(test) && h.multiLabel
    ensures t.None? <==> !h.multiTarget && !MultiTargetData(test) && !h.multiLabel
  {
    if h.multiTarget || MultiTargetData(test) then Some("MT")
    else if h.multiLabel then Some("ML")
    else None
  }

  /** Printed by `isMT` for each label in `WarnedLabels`; without the line
      break that `println` adds. */
  const NonNominalClassWarning := "[Warning] Found a non-nominal class -- not sure how this happened?"

  /** Printed when a multi-label cross-validation run cannot read the
      threshold option as a number and falls back to 0.5; the message carries
      its own line break, and `println` adds one more. */
  const ThresholdFallbackWarning :=
    "[WARNING] Automatic threshold calibration not currently enabled for cross-fold validation, setting threshold = 0.5.\n"

  /** What `isMT` prints while scanning `d`: one warning per warned label. */
  function IsMTWarnings(d: Dataset): (w: seq<string>)
    requires d.WellFormedHeader()
    ensures |w| == |WarnedLabels(d)|
    ensures forall k :: 0 <= k < |w| ==> w[k] == NonNominalClassWarning
  {
    seq(|WarnedLabels(d)|, _ => NonNominalClassWarning)
  }

  const TrainCountKey := "Number of training instances"
  const TestCountKey := "Number of test instances"

  /** The annotation of a combined cross-validation Result: tag "MT-CV" or
      "ML-CV"; for "ML-CV" the threshold is the parsed number, or 0.5 when the
      threshold option does not parse (this never fails); the verbosity; and
      both instance counts reset to the full dataset size. Rows and every
      other entry are left as they were. */
  function AnnotateCV(h: Learner, d: Dataset, top: string, vop: string,
                      parseDouble: string -> Option<real>, r: Result): (a: Result)
    requires d.WellFormedHeader()
    ensures a.labelCount == r.labelCount && a.predictions == r.predictions && a.truth == r.truth
    ensures "Type" in a.info && "Verbosity" in a.info && a.info["Verbosity"] == Text(vop)
    ensures a.info["Type"] == Text("MT-CV") <==> h.multiTarget || MultiTargetData(d)
    ensures a.info["Type"] == Text("ML-CV") <==> !h.multiTarget && !MultiTargetData(d)
    ensures a.info["Type"] == Text("ML-CV") ==>
      "Threshold" in a.info && a.info["Threshold"] == Decimal(parseDouble(top).GetOr(0.5))
    ensures a.info["Type"] == Text("MT-CV") ==>
      ("Threshold" in a.info <==> "Threshold" in r.info) &&
      ("Threshold" in r.info ==> a.info["Threshold"] == r.info["Threshold"])
    ensures forall k :: k in r.info && k != "Type" && k != "Threshold" && k != "Verbosity" ==>
      k in a.info && a.info[k] == r.info[k]
    ensures forall k :: k in a.info ==> k in r.info || k == "Type" || k == "Threshold" || k == "Verbosity"
    ensures a.values.Keys == r.values.Keys + {TrainCountKey, TestCountKey}
    ensures a.values[TrainCountKey] == |d.instances| as real && a.values[TestCountKey] == |d.instances| as real
    ensures forall k :: k in r.values && k != TrainCountKey && k != TestCountKey ==> a.values[k] == r.values[k]
  {
    var tagged :=
      if h.multiTarget || MultiTargetData(d) then
        r.SetInfo("Type", Text("MT-CV"))
      else
        r.SetInfo("Type", Text("ML-CV")).SetInfo("Threshold", Decimal(parseDouble(top).GetOr(0.5)));
    var n := |d.instances| as real;
    tagged.SetInfo("Verbosity", Text(vop)).SetValue(TrainCountKey, n).SetValue(TestCountKey, n)
  }

  /** The default threshold option "PCut1" does not parse as a number, so a
      multi-label cross-validation run falls back to 0.5; the option "0.5"
      gives 0.5 as well. */
  lemma ThresholdScenarios(h: Learner, d: Dataset, vop: string, parseDouble: string -> Option<real>, r: Result)
    requires d.WellFormedHeader() && !h.multiTarget && !MultiTargetData(d)
    requires parseDouble("PCut1").None? && parseDouble("0.5") == Some(0.5)
    ensures AnnotateCV(h, d, "PCut1", vop, parseDouble, r).info["Threshold"] == Decimal(0.5)
    ensures AnnotateCV(h, d, "0.5", vop, parseDouble, r).info["Threshold"] == Decimal(0.5)
  {
  }
}

=== FILE: classifiers.dfy ===
/** The classifier, seen only through its capability markers and its
    build/predict contract; its learning algorithm is not part of this model. */
module Classifiers {
  import opened Outcomes
  import opened Data

  /** A built classifier: `distributionForInstance` and, for a threaded
      classifier, `distributionForInstanceM` over a whole test set. */
  datatype Model = Model(
    predict: Instance -> seq<real>,
    predictBatch: seq<Instance> -> seq<seq<real>>)

  /** An unbuilt classifier: which interfaces it implements, and
      `buildClassifier`, which may throw. Building on the same data gives the
      same model. */
  datatype Learner = Learner(
    multiTarget: bool,
    multiLabel: bool,
    threaded: bool,
    build: Dataset -> Outcome<Model>)
}

=== FILE: data.dfy ===
/** Weka's `Instances` as the evaluation driver uses it: a header and an
    ordered sequence of instances. */
module Data {

  /** The kind of an attribute, as far as the driver looks at it: nominal with
      some number of values, or anything else (numeric, string, date, ...). */
  datatype Attribute = Nominal(numValues: nat) | NonNominal

  /** One instance: its values in header order. In MEKA the first L values are
      the labels and the remaining ones are the features. */
  type Instance = seq<real>

  /** A dataset. MEKA uses the class index as the number of labels L: the
      attributes `0..L-1` are the labels. */
  datatype Dataset = Dataset(attributes: seq<Attribute>, classIndex: nat, instances: seq<Instance>) {

    /** Weka's `setClassIndex` rejects an index at or beyond the attribute count. */
    predicate WellFormedHeader() {
      classIndex < |attributes|
    }

    /** The same header with other instances, as Weka's copy constructors build it. */
    function WithInstances(xs: seq<Instance>): Dataset {
      this.(instances := xs)
    }
  }

  /** Two datasets with the same attributes and class index. */
  predicate SameHeader(a: Dataset, b: Dataset) {
    a.attributes == b.attributes && a.classIndex == b.classIndex
  }

  /** The first L values of each instance: the ground-truth label rows. */
  function LabelRows(xs: seq<Instance>, L: nat): seq<seq<real>>
    requires forall i :: 0 <= i < |xs| ==> L <= |xs[i]|
  {
    seq(|xs|, i requires 0 <= i < |xs| => xs[i][..L])
  }
}

=== FILE: evaluation.dfy ===
/** The evaluation driver: building and testing on one split, cross-validation
    over folds, and the single-split run of `runExperiment` with its empty-side
    fallback and predictions export. */
module Evaluation {
  import opened Outcomes
  import opened Data
  import opened Results
  import opened Classifiers
  import opened Splitter
  import opened Tester
  import opened Annotation
  import Export

  /** Collaborators outside the driver, passed in as functions:
      `Double.parseDouble` (None when it throws), `MLEvalUtils.getThreshold`,
      Weka's `trainCV`/`testCV` fold generation (dataset, fold count, fold) and
      `MLEvalUtils.combinePredictions`; each of these may throw. */
  datatype Externals = Externals(
    parseDouble: string -> Option<real>,
    getThreshold: (seq<seq<real>>, Dataset, string) -> Outcome<string>,
    trainCV: (Dataset, nat, nat) -> Outcome<Dataset>,
    testCV: (Dataset, nat, nat) -> Outcome<Dataset>,
    combinePredictions: seq<Result> -> Outcome<Result>)

  /** Weka's own check in `trainCV` and `testCV`: fewer than two folds, or more
      folds than instances, throws IllegalArgumentException. */
  ghost predicate WekaFoldChecks(ext: Externals) {
    forall d: Dataset, k: nat, j: nat :: k < 2 || k > |d.instances| ==>
      ext.trainCV(d, k, j).Failure? && ext.testCV(d, k, j).Failure?
  }

  /** Three-argument `evaluateModel`: build on the training set, test on the
      test set, and record both set sizes. Classifier errors propagate. */
  function EvaluateRaw(h: Learner, train: Dataset, test: Dataset): (r: Outcome<Result>)
    ensures r.Success? <==> h.build(train).Success? && TestClassifier(h, h.build(train).value, test).Success?
    ensures r.Success? ==>
      var t := TestClassifier(h, h.build(train).value, test).value;
      r.value.labelCount == t.labelCount && r.value.predictions == t.predictions && r.value.truth == t.truth &&
      r.value.info == t.info
    ensures r.Success? ==> r.value.values.Keys == {TrainCountKey, TestCountKey}
    ensures r.Success? ==>
      r.value.values[TrainCountKey] == |train.instances| as real &&
      r.value.values[TestCountKey] == |test.instances| as real
  {
    var m :- h.build(train);
    var r :- TestClassifier(h, m, test);
    Success(r.SetValue(TrainCountKey, |train.instances| as real).SetValue(TestCountKey, |test.instances| as real))
  }

  /** Five-argument `evaluateModel`: the raw result, tagged "MT" or "ML" (see
      `TypeTag`); only an "ML" result gets a calibrated threshold; the
      verbosity is always recorded. */
  function EvaluateModel(h: Learner, train: Dataset, test: Dataset, top: string, vop: string,
                         ext: Externals): (r: Outcome<Result>)
    requires test.WellFormedHeader()
    ensures r.Success? <==>
      EvaluateRaw(h, train, test).Success? &&
      (TypeTag(h, test) == Some("ML") ==>
         ext.getThreshold(EvaluateRaw(h, train, test).value.predictions, train, top).Success?)
    ensures r.Success? ==>
      var raw := EvaluateRaw(h, train, test).value;
      r.value.predictions == raw.predictions && r.value.truth == raw.truth && r.value.values == raw.values
    ensures r.Success? ==> "Verbosity" in r.value.info && r.value.info["Verbosity"] == Text(vop)
    ensures r.Success? ==>
      ("Type" in r.value.info <==> TypeTag(h, test).Some?) &&
      (TypeTag(h, test).Some? ==> r.value.info["Type"] == Text(TypeTag(h, test).value))
    ensures r.Success? ==> ("Threshold" in r.value.info <==> TypeTag(h, test) == Some("ML"))
    ensures r.Success? && TypeTag(h, test) == Some("ML") ==>
      var raw := EvaluateRaw(h, train, test).value;
      ext.getThreshold(raw.predictions, train, top).Success? &&
      r.value.info["Threshold"] == Text(ext.getThreshold(raw.predictions, train, top).value)
  {
    var raw :- EvaluateRaw(h, train, test);
    var tagged :-
      if h.multiTarget || MultiTargetData(test) then
        Success(raw.SetInfo("Type", Text("MT")))
      else if h.multiLabel then
        var t :- ext.getThreshold(raw.predictions, train, top);
        Success(raw.SetInfo("Type", Text("ML")).SetInfo("Threshold", Text(t)))
      else
        Success(raw);
    Success(tagged.SetInfo("Verbosity", Text(vop)))
  }

  /** Four-argument `evaluateModel`, for a classifier that is already built:
      test it, tag the result as `TypeTag` says, and record the given threshold
      values and verbosity as they are. */
  function EvaluateBuilt(h: Learner, m: Model, test: Dataset, tal: string, vop: string): (r: Outcome<Result>)
    requires test.WellFormedHeader()
    ensures r.Success? <==> TestClassifier(h, m, test).Success?
    ensures r.Success? ==>
      r.value.predictions == TestClassifier(h, m, test).value.predictions &&
      r.value.truth == TestClassifier(h, m, test).value.truth
    ensures r.Success? ==>
      ("Type" in r.value.info <==> TypeTag(h, test).Some?) &&
      (TypeTag(h, test).Some? ==> r.value.info["Type"] == Text(TypeTag(h, test).value))
    ensures r.Success? ==>
      "Threshold" in r.value.info && r.value.info["Threshold"] == Text(tal) &&
      "Verbosity" in r.value.info && r.value.info["Verbosity"] == Text(vop)
  {
    var res :- TestClassifier(h, m, test);
    var tagged :=
      if h.multiTarget || MultiTargetData(test) then res.SetInfo("Type", Text("MT"))
      else if h.multiLabel then res.SetInfo("Type", Text("ML"))
      else res;
    Success(tagged.SetInfo("Threshold", Text(tal)).SetInfo("Verbosity", Text(vop)))
  }

  /** `evaluateModelM`, the threaded single-split evaluation: build, test with
      `TestClassifierM`, record the set sizes under the keys "N_train" and
      "N_test", tag as `TypeTag` says, and ask for a threshold whatever the
      tag. */
  function EvaluateModelM(h: Learner, train: Dataset, test: Dataset, top: string, vop: string,
                          ext: Externals): (r: Outcome<Result>)
    requires test.WellFormedHeader()
    ensures r.Success? <==>
      h.build(train).Success? && TestClassifierM(h, h.build(train).value, test).Success? &&
      ext.getThreshold(TestClassifierM(h, h.build(train).value, test).value.predictions, train, top).Success?
    ensures r.Success? ==>
      var t := TestClassifierM(h, h.build(train).value, test).value;
      r.value.predictions == t.predictions && r.value.truth == t.truth
    ensures r.Success? ==> |r.value.predictions| == (if h.threaded then |test.instances| else 0)
    ensures r.Success? ==>
      r.value.values.Keys == {"N_train", "N_test"} &&
      r.value.values["N_train"] == |train.instances| as real &&
      r.value.values["N_test"] == |test.instances| as real
    ensures r.Success? ==>
      ("Type" in r.value.info <==> TypeTag(h, test).Some?) &&
      (TypeTag(h, test).Some? ==> r.value.info["Type"] == Text(TypeTag(h, test).value))
    ensures r.Success? ==>
      "Threshold" in r.value.info &&
      r.value.info["Threshold"] == Text(ext.getThreshold(r.value.predictions, train, top).value)
    ensures r.Success? ==> "Verbosity" in r.value.info && r.value.info["Verbosity"] == Text(vop)
  {
    var m :- h.build(train);
    var res :- TestClassifierM(h, m, test);
    var counted := res.SetValue("N_train", |train.instances| as real).SetValue("N_test", |test.instances| as real);
    var tagged :=
      if h.multiTarget || MultiTargetData(test) then counted.SetInfo("Type", Text("MT"))
      else if h.multiLabel then counted.SetInfo("Type", Text("ML"))
      else counted;
    var t :- ext.getThreshold(tagged.predictions, train, top);
    Success(tagged.SetInfo("Threshold", Text(t)).SetInfo("Verbosity", Text(vop)))
  }

  /** What one cross-validation fold leaves behind. */
  datatype FoldRecord = FoldRecord(train: Dataset, test: Dataset, result: Result)

  /** Fold `j` of a k-fold run goes through: both fold sets are generated and
      the classifier builds and tests on them. */
  predicate FoldSucceeds(h: Learner, d: Dataset, k: nat, j: nat, ext: Externals) {
    ext.trainCV(d, k, j).Success? && ext.testCV(d, k, j).Success? &&
    EvaluateRaw(h, ext.trainCV(d, k, j).value, ext.testCV(d, k, j).value).Success?
  }

  /** Folds `i..k-1` of a k-fold run, processed in increasing order; the first
      fold whose generation, build or test fails aborts the run. */
  function RunFolds(h: Learner, d: Dataset, k: nat, i: nat, ext: Externals): (r: Outcome<seq<FoldRecord>>)
    requires i <= k
    ensures r.Success? <==> forall j :: i <= j < k ==> FoldSucceeds(h, d, k, j, ext)
    ensures r.Success? ==> |r.value| == k - i
    ensures r.Success? ==> forall j :: 0 <= j < k - i ==>
      ext.trainCV(d, k, i + j) == Success(r.value[j].train) &&
      ext.testCV(d, k, i + j) == Success(r.value[j].test) &&
      EvaluateRaw(h, r.value[j].train, r.value[j].test) == Success(r.value[j].result)
    decreases k - i
  {
    if i == k then
      Success([])
    else
      assert FoldSucceeds(h, d, k, i, ext) ==> ext.trainCV(d, k, i).Success? && ext.testCV(d, k, i).Success?;
      var train :- ext.trainCV(d, k, i);
      var test :- ext.testCV(d, k, i);
      var result :- EvaluateRaw(h, train, test);
      var rest :- RunFolds(h, d, k, i + 1, ext);
      Success([FoldRecord(train, test, result)] + rest)
  }

  /** The per-fold results, in fold order, as handed to `combinePredictions`. */
  function FoldResults(folds: seq<FoldRecord>): seq<Result> {
    seq(|folds|, j requires 0 <= j < |folds| => folds[j].result)
  }

  /** The per-fold data map, keyed by fold number. */
  function FoldMap(folds: seq<FoldRecord>): (p: map<nat, FoldRecord>)
    ensures forall j: nat :: j in p <==> j < |folds|
    ensures forall j: nat :: j < |folds| ==> p[j] == folds[j]
  {
    map j: nat | j < |folds| :: folds[j]
  }

  /** A cross-validation run's annotated Result, its per-fold data, and the
      warnings it printed. */
  datatype CvOutput = CvOutput(result: Result, perFold: map<nat, FoldRecord>, warnings: seq<string>)

  /** `cvModel`: every fold is built and evaluated, the fold results are
      combined in fold order and the combination is annotated by `AnnotateCV`.
      The per-fold map is kept only when asked for. Unless the classifier is
      multi-target, `isMT` scans the dataset and warns about non-nominal
      labels; then a multi-label run whose threshold option is not a number
      warns that it uses 0.5. A negative fold count makes the array
      allocation throw. */
  function CvModel(h: Learner, d: Dataset, numFolds: int, top: string, vop: string,
                   recordFolds: bool, ext: Externals): (r: Outcome<CvOutput>)
    requires d.WellFormedHeader()
    ensures numFolds < 0 ==> r.Failure?
    ensures numFolds >= 0 ==>
      (r.Success? <==>
         (forall j :: 0 <= j < numFolds ==> FoldSucceeds(h, d, numFolds, j, ext)) &&
         ext.combinePredictions(FoldResults(RunFolds(h, d, numFolds, 0, ext).value)).Success?)
    ensures r.Success? ==>
      var combined := ext.combinePredictions(FoldResults(RunFolds(h, d, numFolds, 0, ext).value));
      combined.Success? && r.value.result == AnnotateCV(h, d, top, vop, ext.parseDouble, combined.value)
    ensures r.Success? && recordFolds ==>
      (forall j: nat :: j in r.value.perFold <==> j < numFolds) &&
      forall j: nat :: j < numFolds ==>
        ext.trainCV(d, numFolds, j) == Success(r.value.perFold[j].train) &&
        ext.testCV(d, numFolds, j) == Success(r.value.perFold[j].test) &&
        EvaluateRaw(h, r.value.perFold[j].train, r.value.perFold[j].test) == Success(r.value.perFold[j].result)
    ensures r.Success? && !recordFolds ==> r.value.perFold == map[]
    ensures r.Success? ==>
      r.value.warnings ==
        (if h.multiTarget then [] else IsMTWarnings(d)) +
        (if r.value.result.info["Type"] == Text("ML-CV") && ext.parseDouble(top).None?
         then [ThresholdFallbackWarning] else [])
    ensures r.Success? ==>
      r.value.result.values[TrainCountKey] == |d.instances| as real &&
      r.value.result.values[TestCountKey] == |d.instances| as real
  {
    if numFolds < 0 then
      Failure("NegativeArraySizeException")
    else
      var folds :- RunFolds(h, d, numFolds, 0, ext);
      var combined :- ext.combinePredictions(FoldResults(folds));
      var scanned := if h.multiTarget then [] else IsMTWarnings(d);
      var fallsBack := !h.multiTarget && !MultiTargetData(d) && ext.parseDouble(top).None?;
      Success(CvOutput(AnnotateCV(h, d, top, vop, ext.parseDouble, combined),
                       if recordFolds then FoldMap(folds) else map[],
                       scanned + if fallsBack then [ThresholdFallbackWarning] else []))
  }

  /** What the single-split mode does after the split: evaluate on the two
      sets, or only build the classifier on some dataset. */
  datatype Action = Evaluate(train: Dataset, test: Dataset) | BuildOnly(on: Dataset)

  /** Evaluation happens only when it is enabled and neither side of the split
      is empty. With both sides non-empty but evaluation off, the classifier is
      built on the training set; with an empty side it is built on the full
      dataset as it was loaded. */
  function Decide(s: Split, full: Dataset, doEval: bool): (a: Action)
    ensures a.Evaluate? <==> doEval && |s.train.instances| > 0 && |s.test.instances| > 0
    ensures a.Evaluate? ==> a.train == s.train && a.test == s.test
    ensures a.BuildOnly? ==>
      a.on == (if |s.train.instances| > 0 && |s.test.instances| > 0 then s.train else full)
  {
    if |s.train.instances| > 0 && |s.test.instances| > 0 then
      if doEval then Evaluate(s.train, s.test) else BuildOnly(s.train)
    else
      BuildOnly(full)
  }

  /** The options of `runExperiment` that the modelled core reads, already
      parsed. A given test file is already loaded. */
  datatype Config = Config(
    crossValidation: bool,
    folds: Option<int>,
    recordFolds: bool,
    testFile: Option<Dataset>,
    splitPercentage: Option<real>,
    splitNumber: Option<int>,
    invertSplit: bool,
    noEval: bool,
    threaded: bool,
    threshold: Option<string>,
    verbosity: Option<string>,
    exportPredictions: bool)
  {
    /** The threshold option, "PCut1" by default. */
    function Top(): string { threshold.GetOr("PCut1") }

    /** The verbosity option, "1" by default. */
    function Vop(): string { verbosity.GetOr("1") }
  }

  /** The outcome of a run: a cross-validation run always prints its result;
      a single-split run reports the split, the Result if one was produced,
      whether it was printed, the dataset the classifier ended up built on,
      and the exported predictions if asked for. */
  datatype Run =
    | CvRun(result: Result, perFold: map<nat, FoldRecord>, warnings: seq<string>)
    | SplitRun(split: Split, evaluation: Option<Result>, printed: bool, builtOn: Dataset,
               predictions: Option<Dataset>)

  /** Predicate for the headers the single-split mode reads. */
  predicate HeadersWellFormed(d: Dataset, cfg: Config) {
    d.WellFormedHeader() && (cfg.testFile.Some? ==> cfg.testFile.value.WellFormedHeader())
  }

  /** The single-split branch of `runExperiment`. */
  function RunSplit(h: Learner, d: Dataset, cfg: Config, ext: Externals): (r: Outcome<Run>)
    requires HeadersWellFormed(d, cfg)
    ensures r.Success? <==>
      var p := PlanSplit(d, cfg.testFile, cfg.splitPercentage, cfg.splitNumber, cfg.invertSplit);
      p.Success? &&
      var s := p.value;
      var both := |s.train.instances| > 0 && |s.test.instances| > 0;
      var on := if both then s.train else d;
      h.build(on).Success? &&
      (both && !cfg.noEval ==>
         if cfg.threaded then EvaluateModelM(h, s.train, s.test, cfg.Top(), cfg.Vop(), ext).Success?
         else EvaluateModel(h, s.train, s.test, cfg.Top(), cfg.Vop(), ext).Success?) &&
      (cfg.exportPredictions ==> Export.ExportPredictions(h, h.build(on).value, s.test).Success?)
    ensures r.Success? ==> r.value.SplitRun?
    ensures r.Success? ==>
      var p := PlanSplit(d, cfg.testFile, cfg.splitPercentage, cfg.splitNumber, cfg.invertSplit);
      p.Success? && r.value.split == p.value
    ensures r.Success? ==>
      var s := r.value.split;
      (r.value.evaluation.Some? <==> !cfg.noEval && |s.train.instances| > 0 && |s.test.instances| > 0) &&
      (r.value.printed <==> r.value.evaluation.Some?) &&
      r.value.builtOn == (if |s.train.instances| > 0 && |s.test.instances| > 0 then s.train else d)
    ensures r.Success? && r.value.evaluation.Some? ==>
      var s := r.value.split;
      (cfg.threaded ==> EvaluateModelM(h, s.train, s.test, cfg.Top(), cfg.Vop(), ext) == Success(r.value.evaluation.value)) &&
      (!cfg.threaded ==> EvaluateModel(h, s.train, s.test, cfg.Top(), cfg.Vop(), ext) == Success(r.value.evaluation.value))
    ensures r.Success? ==>
      (r.value.predictions.Some? <==> cfg.exportPredictions) &&
      h.build(r.value.builtOn).Success? &&
      (cfg.exportPredictions ==>
         Export.ExportPredictions(h, h.build(r.value.builtOn).value, r.value.split.test) ==
         Success(r.value.predictions.value))
  {
    var s :- PlanSplit(d, cfg.testFile, cfg.splitPercentage, cfg.splitNumber, cfg.invertSplit);
    var evaluated :-
      match Decide(s, d, !cfg.noEval)
      case Evaluate(train, test) =>
        var m :- h.build(train);
        var res :-
          if cfg.threaded then EvaluateModelM(h, train, test, cfg.Top(), cfg.Vop(), ext)
          else EvaluateModel(h, train, test, cfg.Top(), cfg.Vop(), ext);
        Success((Some(res), train, m))
      case BuildOnly(on) =>
        var m :- h.build(on);
        Success((None, on, m));
    var result := evaluated.0;
    var builtOn := evaluated.1;
    var printed := |s.train.instances| > 0 && |s.test.instances| > 0 && result.Some?;
    var predictions :-
      if cfg.exportPredictions then
        var p :- Export.ExportPredictions(h, evaluated.2, s.test);
        Success(Some(p))
      else
        Success(None);
    Success(SplitRun(s, result, printed, builtOn, predictions))
  }

  const CvPredictionsWarning := "Predictions cannot be saved when using cross-validation!"

  /** `runExperiment` after loading: a dataset without labels is rejected;
      cross-validation (10 folds by default) takes precedence over the single
      split, and asking it for a predictions file only draws a warning, printed
      before the run's own. `runExperiment` takes a `MultiLabelClassifier`, so
      every learner reaching it has `multiLabel` set and the untagged case of
      `TypeTag` does not arise from here. */
  function RunExperiment(h: Learner, d: Dataset, cfg: Config, ext: Externals): (r: Outcome<Run>)
    requires HeadersWellFormed(d, cfg)
    ensures d.classIndex == 0 ==> r.Failure?
    ensures d.classIndex > 0 && cfg.crossValidation ==>
      (r.Success? <==> CvModel(h, d, cfg.folds.GetOr(10), cfg.Top(), cfg.Vop(), cfg.recordFolds, ext).Success?)
    ensures r.Success? && cfg.crossValidation ==>
      var cv := CvModel(h, d, cfg.folds.GetOr(10), cfg.Top(), cfg.Vop(), cfg.recordFolds, ext);
      r.value.CvRun? && cv.Success? &&
      r.value.result == cv.value.result && r.value.perFold == cv.value.perFold &&
      r.value.warnings == (if cfg.exportPredictions then [CvPredictionsWarning] else []) + cv.value.warnings
    ensures d.classIndex > 0 && !cfg.crossValidation ==> r == RunSplit(h, d, cfg, ext)
  {
    if d.classIndex == 0 then
      Failure("Number of labels not specified")
    else if cfg.crossValidation then
      var cv :- CvModel(h, d, cfg.folds.GetOr(10), cfg.Top(), cfg.Vop(), cfg.recordFolds, ext);
      Success(CvRun(cv.result, cv.perFold,
                    (if cfg.exportPredictions then [CvPredictionsWarning] else []) + cv.warnings))
    else
      RunSplit(h, d, cfg, ext)
  }

  /** Empty-side fallback: when either side of the split is empty the
      classifier is built on the full dataset, no Result is produced and
      nothing is printed, whether or not evaluation was asked for. */
  lemma EmptySideFallsBackToFullDataset(h: Learner, d: Dataset, cfg: Config, ext: Externals)
    requires HeadersWellFormed(d, cfg)
    requires RunSplit(h, d, cfg, ext).Success?
    requires |RunSplit(h, d, cfg, ext).value.split.train.instances| == 0 ||
             |RunSplit(h, d, cfg, ext).value.split.test.instances| == 0
    ensures RunSplit(h, d, cfg, ext).value.evaluation.None?
    ensures !RunSplit(h, d, cfg, ext).value.printed
    ensures RunSplit(h, d, cfg, ext).value.builtOn == d
  {
  }

  /** With both sides non-empty and evaluation on, the non-threaded run
      produces a Result with exactly one row per test instance, whose truth
      rows are the test instances' labels. */
  lemma SplitResultCoversTestSet(h: Learner, d: Dataset, cfg: Config, ext: Externals)
    requires HeadersWellFormed(d, cfg) && !cfg.threaded && !cfg.noEval
    ensures var r := RunSplit(h, d, cfg, ext);
      r.Success? && |r.value.split.train.instances| > 0 && |r.value.split.test.instances| > 0 ==>
        var test := r.value.split.test.instances;
        r.value.evaluation.Some? && r.value.printed &&
        |r.value.evaluation.value.predictions| == |test| &&
        forall i :: 0 <= i < |test| ==>
          test[i][..r.value.split.test.classIndex] == r.value.evaluation.value.truth[i]
  {
  }

  /** With both sides non-empty and evaluation on, a successful evaluation
      (and, when asked for, a successful export) makes the run succeed with
      that evaluation's Result, and the Result is printed. */
  lemma SplitEvaluationProduced(h: Learner, d: Dataset, cfg: Config, ext: Externals)
    requires HeadersWellFormed(d, cfg) && !cfg.noEval
    requires PlanSplit(d, cfg.testFile, cfg.splitPercentage, cfg.splitNumber, cfg.invertSplit).Success?
    requires var s := PlanSplit(d, cfg.testFile, cfg.splitPercentage, cfg.splitNumber, cfg.invertSplit).value;
      |s.train.instances| > 0 && |s.test.instances| > 0 &&
      (if cfg.threaded then EvaluateModelM(h, s.train, s.test, cfg.Top(), cfg.Vop(), ext).Success?
       else EvaluateModel(h, s.train, s.test, cfg.Top(), cfg.Vop(), ext).Success?) &&
      (cfg.exportPredictions ==> Export.ExportPredictions(h, h.build(s.train).value, s.test).Success?)
    ensures RunSplit(h, d, cfg, ext).Success?
    ensures var s := PlanSplit(d, cfg.testFile, cfg.splitPercentage, cfg.splitNumber, cfg.invertSplit).value;
      RunSplit(h, d, cfg, ext).value.evaluation ==
        Some(if cfg.threaded then EvaluateModelM(h, s.train, s.test, cfg.Top(), cfg.Vop(), ext).value
             else EvaluateModel(h, s.train, s.test, cfg.Top(), cfg.Vop(), ext).value)
    ensures RunSplit(h, d, cfg, ext).value.printed
  {
  }

  /** With both sides non-empty and evaluation on, the threaded run produces a
      Result with one row per test instance for a threaded classifier, whose
      truth rows are the test instances' labels, and no rows for a classifier
      that is not threaded. */
  lemma ThreadedSplitResult(h: Learner, d: Dataset, cfg: Config, ext: Externals)
    requires HeadersWellFormed(d, cfg) && cfg.threaded && !cfg.noEval
    ensures var r := RunSplit(h, d, cfg, ext);
      r.Success? && |r.value.split.train.instances| > 0 && |r.value.split.test.instances| > 0 ==>
        var test := r.value.split.test.instances;
        r.value.evaluation.Some? && r.value.printed &&
        |r.value.evaluation.value.predictions| == (if h.threaded then |test| else 0) &&
        (h.threaded ==>
           |r.value.evaluation.value.truth| == |test| &&
           forall i :: 0 <= i < |test| ==> test[i][..r.value.split.test.classIndex] == r.value.evaluation.value.truth[i])
  {
  }

  /** Every fold of a k-fold run that succeeds is recorded under its own number,
      and the fold results go to `combinePredictions` in fold order. */
  lemma FoldsRecordedInOrder(h: Learner, d: Dataset, k: nat, top: string, vop: string,
                                                ext: Externals)
    requires d.WellFormedHeader()
    ensures CvModel(h, d, k, top, vop, true, ext).Success? ==>
      var folds := RunFolds(h, d, k, 0, ext).value;
      |FoldResults(folds)| == k &&
      forall j :: 0 <= j < k ==>
        EvaluateRaw(h, ext.trainCV(d, k, j).value, ext.testCV(d, k, j).value) == Success(FoldResults(folds)[j]) &&
        CvModel(h, d, k, top, vop, true, ext).value.perFold[j].result == FoldResults(folds)[j]
  {
  }

  /** Under Weka's fold checks, a cross-validation run with more folds than
      instances fails: the default 10 folds need at least 10 instances. */
  lemma TooFewInstancesForFolds(h: Learner, d: Dataset, numFolds: int, top: string, vop: string,
                                recordFolds: bool, ext: Externals)
    requires d.WellFormedHeader() && WekaFoldChecks(ext)
    requires 0 < numFolds && (numFolds < 2 || numFolds > |d.instances|)
    ensures CvModel(h, d, numFolds, top, vop, recordFolds, ext).Failure?
  {
    assert !FoldSucceeds(h, d, numFolds, 0, ext);
  }

  /** A classifier that is not multi-target, on data whose only label is
      non-nominal, with a numeric threshold option: the run prints exactly one
      warning, the one from `isMT`. */
  lemma NonNominalLabelWarnsInCv(h: Learner, d: Dataset, vop: string, recordFolds: bool, ext: Externals)
    requires d.WellFormedHeader() && !h.multiTarget
    requires d.classIndex == 1 && d.attributes[0].NonNominal?
    requires ext.parseDouble("0.5") == Some(0.5)
    ensures CvModel(h, d, 10, "0.5", vop, recordFolds, ext).Success? ==>
      CvModel(h, d, 10, "0.5", vop, recordFolds, ext).value.warnings == [NonNominalClassWarning]
  {
    assert WarnedLabelsFrom(d, 1) == [];
    assert WarnedLabels(d) == [0];
    assert IsMTWarnings(d) == [NonNominalClassWarning];
  }
}

=== FILE: export.dfy ===
/** The predictions export of the single-split mode: each test instance is
    copied with its label fields overwritten by the rounded predictions. */
module Export {
  import opened Outcomes
  import opened Data
  import opened Classifiers
  import JavaLib
  import Tester

  /** The vector the export writes back for instance `x`: the classifier's
      answer on `x` itself (the export does not mask), cut to `[L, 2L)` for a
      multi-target classifier. */
  function ExportedVector(h: Learner, m: Model, L: nat, x: Instance): Outcome<seq<real>> {
    var pred := m.predict(x);
    if h.multiTarget then JavaLib.CopyOfRange(pred, L, 2 * L) else Success(pred)
  }

  /** A copy of `x` whose first `|p|` values are the rounded entries of `p`. */
  function Overwrite(x: Instance, p: seq<real>): Instance
    requires |p| <= |x|
  {
    seq(|x|, j requires 0 <= j < |x| => if j < |p| then JavaLib.Round(p[j]) as real else x[j])
  }

  /** One exported instance. Writing past the end of the instance throws. */
  function ExportRow(h: Learner, m: Model, L: nat, x: Instance): (r: Outcome<Instance>)
    ensures !h.multiTarget ==> (r.Success? <==> |m.predict(x)| <= |x|)
    ensures h.multiTarget ==> (r.Success? <==> L <= |m.predict(x)| && L <= |x|)
    ensures r.Success? ==> |r.value| == |x|
    ensures r.Success? && !h.multiTarget ==>
      (forall j :: 0 <= j < |m.predict(x)| ==> r.value[j] == JavaLib.Round(m.predict(x)[j]) as real) &&
      (forall j :: |m.predict(x)| <= j < |x| ==> r.value[j] == x[j])
    ensures r.Success? && h.multiTarget ==>
      (forall j :: 0 <= j < L ==>
         r.value[j] == JavaLib.Round(if L + j < |m.predict(x)| then m.predict(x)[L + j] else 0.0) as real) &&
      (forall j :: L <= j < |x| ==> r.value[j] == x[j])
  {
    var p :- ExportedVector(h, m, L, x);
    if |p| > |x| then Failure("ArrayIndexOutOfBoundsException") else Success(Overwrite(x, p))
  }

  /** The exported dataset: the test set's header and one exported copy per
      test instance, in order, with L taken from the test set's class index. */
  function ExportPredictions(h: Learner, m: Model, d: Dataset): (r: Outcome<Dataset>)
    ensures r.Success? <==> forall i :: 0 <= i < |d.instances| ==>
      ExportRow(h, m, d.classIndex, d.instances[i]).Success?
    ensures r.Success? ==> SameHeader(r.value, d) && |r.value.instances| == |d.instances|
    ensures r.Success? ==> forall i :: 0 <= i < |d.instances| ==>
      r.value.instances[i] == ExportRow(h, m, d.classIndex, d.instances[i]).value
    decreases |d.instances|
  {
    if |d.instances| == 0 then
      Success(d)
    else
      var n := |d.instances| - 1;
      var prefix :- ExportPredictions(h, m, d.WithInstances(d.instances[..n]));
      var row :- ExportRow(h, m, d.classIndex, d.instances[n]);
      Success(prefix.WithInstances(prefix.instances + [row]))
  }

  /** For a classifier that ignores the label values of its input, the export
      writes back, rounded, exactly the predictions the tester stores: the
      same `[L, 2L)` slice for a multi-target classifier. */
  lemma ExportRoundsTesterPredictions(h: Learner, m: Model, d: Dataset)
    requires forall i :: 0 <= i < |d.instances| ==>
      d.classIndex <= |d.instances[i]| &&
      m.predict(d.instances[i]) == m.predict(Tester.Mask(d.instances[i], d.classIndex))
    requires !h.multiTarget ==> forall i :: 0 <= i < |d.instances| ==>
      |m.predict(d.instances[i])| <= |d.instances[i]|
    requires Tester.TestClassifier(h, m, d).Success?
    ensures ExportPredictions(h, m, d).Success?
    ensures forall i, j :: 0 <= i < |d.instances| && 0 <= j < |Tester.TestClassifier(h, m, d).value.predictions[i]| ==>
      ExportPredictions(h, m, d).value.instances[i][j] ==
      JavaLib.Round(Tester.TestClassifier(h, m, d).value.predictions[i][j]) as real
  {
  }
}

=== FILE: java_lib.dfy ===
/** The Java library operations whose edge cases the evaluation driver
    inherits: `Math.round(double)` and `Arrays.copyOfRange(double[], int, int)`.
    Doubles are modelled as exact reals. */
module JavaLib {
  import opened Outcomes

  /** `Math.round`: the nearest integer, a half rounding up. */
  function Round(v: real): (r: int)
    ensures v - 0.5 < r as real <= v + 0.5
  {
    (v + 0.5).Floor
  }

  /** A fresh `double[n]`: every entry 0.0. */
  function Zeros(n: nat): seq<real> {
    seq(n, i => 0.0)
  }

  /** `Arrays.copyOfRange(y, from, to)`: a new array of length `to - from`
      holding `y[from..]`, padded with 0.0 past the end of `y`. It throws
      IllegalArgumentException when `from > to` and
      ArrayIndexOutOfBoundsException when `from` lies outside `[0, |y|]`. */
  function CopyOfRange(y: seq<real>, from: int, to: int): (r: Outcome<seq<real>>)
    ensures r.Success? <==> 0 <= from <= |y| && from <= to
    ensures r.Success? ==> |r.value| == to - from
    ensures r.Success? ==> forall k :: 0 <= k < |r.value| ==>
      r.value[k] == (if from + k < |y| then y[from + k] else 0.0)
  {
    if to < from then
      Failure("IllegalArgumentException")
    else if from < 0 || from > |y| then
      Failure("ArrayIndexOutOfBoundsException")
    else
      var end := if to < |y| then to else |y|;
      Success(y[from..end] + Zeros(to - end))
  }

  /** Copying `[n, 2n)` out of a vector `a + b` whose halves both have length `n`
      yields exactly the second half. */
  lemma {:induction false} CopySecondHalf(a: seq<real>, b: seq<real>)
    requires |a| == |b|
    ensures CopyOfRange(a + b, |a|, 2 * |a|) == Success(b)
  {
    var r := CopyOfRange(a + b, |a|, 2 * |a|);
    assert r.Success?;
    forall k | 0 <= k < |b|
      ensures r.value[k] == b[k]
    {
      assert (a + b)[|a| + k] == b[k];
    }
    assert r.value == b;
  }
}

=== FILE: outcomes.dfy ===
/** Failure-compatible wrappers. A Java exception that aborts an operation of
    the evaluation driver is modelled as a `Failure` carrying the exception's
    name; an optional command-line value is an `Option`. */
module Outcomes {

  datatype Option<+T> = None | Some(value: T) {

    /** The value, or `default` when absent. */
    function GetOr(default: T): T {
      match this
      case Some(v) => v
      case None => default
    }
  }

  datatype Outcome<+T> = Success(value: T) | Failure(error: string) {

    predicate IsFailure() {
      Failure?
    }

    function PropagateFailure<U>(): Outcome<U>
      requires Failure?
    {
      Failure(error)
    }

    function Extract(): T
      requires Success?
    {
      value
    }
  }
}

=== FILE: results.dfy ===
/** The parts of MEKA's `Result` container that the evaluation driver fills
    in: the prediction rows, the true-label rows, the string-keyed metadata and
    the string-keyed numbers. The statistics and report text are computed
    elsewhere and are not modelled. */
module Results {
  import opened Data

  /** A metadata value: a plain string, or `String.valueOf(d)` of a double `d`. */
  datatype Info = Text(text: string) | Decimal(number: real)

  datatype Result = Result(
    labelCount: nat,
    predictions: seq<seq<real>>,
    truth: seq<seq<real>>,
    info: map<string, Info>,
    values: map<string, real>)
  {
    /** `addResult(y, x)`: one more row holding prediction `y` and the true
        labels of instance `x`. */
    function AddResult(y: seq<real>, x: Instance): Result
      requires labelCount <= |x|
    {
      this.(predictions := predictions + [y], truth := truth + [x[..labelCount]])
    }

    function SetInfo(key: string, v: Info): Result {
      this.(info := info[key := v])
    }

    function SetValue(key: string, v: real): Result {
      this.(values := values[key := v])
    }
  }

  /** `new Result(N, L)`: no rows yet (N is only a capacity). */
  function NewResult(L: nat): Result {
    Result(L, [], [], map[], map[])
  }
}

=== FILE: splitter.dfy ===
/** The train/test split planner of `runExperiment`: the training count, the
    two contiguous pieces, and the optional inversion. */
module Splitter {
  import opened Outcomes
  import opened Data
  import JavaLib

  /** A training set and a test set. */
  datatype Split = Split(train: Dataset, test: Dataset) {

    /** The `-i` option: the two sets swap roles. */
    function Inverted(): Split {
      Split(test, train)
    }
  }

  /** The training count N_T for N instances: the rounded percentage when one
      is given, else the given number, else 60% rounded down. The percentage
      is an exact real here; the source computes it in floating point. */
  function TrainCount(n: nat, percentage: Option<real>, number: Option<int>): (nT: int)
    ensures percentage.Some? ==>
      nT as real - 0.5 <= n as real * percentage.value / 100.0 < nT as real + 0.5
    ensures percentage.None? && number.Some? ==> nT == number.value
    ensures percentage.None? && number.None? ==> 0 <= nT <= n && nT * 10 <= n * 6 < nT * 10 + 10
  {
    match percentage
    case Some(p) => JavaLib.Round(n as real * (p / 100.0))
    case None =>
      match number
      case Some(k) => k
      case None => (n * 6) / 10
  }

  /** The first `nT` instances for training and the remaining ones for
      testing, both in their original order and with the header of `d`. A
      count outside `[0, N]` makes Weka's range-copy constructor throw. */
  function SplitAt(d: Dataset, nT: int): (r: Outcome<Split>)
    ensures r.Success? <==> 0 <= nT <= |d.instances|
    ensures r.Success? ==> SameHeader(r.value.train, d) && SameHeader(r.value.test, d)
    ensures r.Success? ==> |r.value.train.instances| == nT
    ensures r.Success? ==> r.value.train.instances + r.value.test.instances == d.instances
  {
    if nT < 0 || nT > |d.instances| then
      Failure("IllegalArgumentException")
    else
      Success(Split(d.WithInstances(d.instances[..nT]), d.WithInstances(d.instances[nT..])))
  }

  /** The split of the single-split mode: the training file against a given
      test file, or the training file cut at `TrainCount`; then inverted on
      request. */
  function PlanSplit(d: Dataset, testFile: Option<Dataset>, percentage: Option<real>,
                     number: Option<int>, invert: bool): (r: Outcome<Split>)
    ensures testFile.Some? ==>
      r == Success(if invert then Split(testFile.value, d) else Split(d, testFile.value))
    ensures testFile.None? ==>
      (r.Success? <==> 0 <= TrainCount(|d.instances|, percentage, number) <= |d.instances|)
    ensures testFile.None? && r.Success? ==>
      SameHeader(r.value.train, d) && SameHeader(r.value.test, d)
    ensures testFile.None? && r.Success? && !invert ==>
      |r.value.train.instances| == TrainCount(|d.instances|, percentage, number) &&
      r.value.train.instances + r.value.test.instances == d.instances
    ensures testFile.None? && r.Success? && invert ==>
      |r.value.test.instances| == TrainCount(|d.instances|, percentage, number) &&
      r.value.test.instances + r.value.train.instances == d.instances
  {
    var s :- match testFile
      case Some(t) => Success(Split(d, t))
      case None => SplitAt(d, TrainCount(|d.instances|, percentage, number));
    Success(if invert then s.Inverted() else s)
  }

  /** Inversion swaps the two sets and changes nothing else. */
  lemma InversionSwapsExactly(d: Dataset, testFile: Option<Dataset>, percentage: Option<real>,
                              number: Option<int>)
    ensures PlanSplit(d, testFile, percentage, number, false).Success? <==>
            PlanSplit(d, testFile, percentage, number, true).Success?
    ensures PlanSplit(d, testFile, percentage, number, true).Success? ==>
      PlanSplit(d, testFile, percentage, number, true).value ==
      PlanSplit(d, testFile, percentage, number, false).value.Inverted()
  {
  }

  /** Inverting twice gives back the original split. */
  lemma InvertTwice(s: Split)
    ensures s.Inverted().Inverted() == s
  {
  }

  /** With a split count in range, the two pieces are exactly `D[0..N_T)` and
      `D[N_T..N)` and their sizes add up to N. */
  lemma PiecesArePrefixAndSuffix(d: Dataset, nT: int)
    requires 0 <= nT <= |d.instances|
    ensures SplitAt(d, nT).Success?
    ensures SplitAt(d, nT).value.train.instances == d.instances[..nT]
    ensures SplitAt(d, nT).value.test.instances == d.instances[nT..]
    ensures |SplitAt(d, nT).value.train.instances| + |SplitAt(d, nT).value.test.instances| == |d.instances|
  {
  }

  /** N = 100 and a 60% split: 60 training and 40 test instances. */
  lemma HundredAtSixtyPercent(d: Dataset)
    requires |d.instances| == 100
    ensures TrainCount(100, Some(60.0), None) == 60
    ensures PlanSplit(d, None, Some(60.0), None, false).Success?
    ensures |PlanSplit(d, None, Some(60.0), None, false).value.train.instances| == 60
    ensures |PlanSplit(d, None, Some(60.0), None, false).value.test.instances| == 40
  {
  }
}

=== FILE: tester.dfy ===
/** The tester: `testClassifier`, which queries a built classifier instance by
    instance with the labels hidden, and its batched variant `testClassifierM`. */
module Tester {
  import opened Outcomes
  import opened Data
  import opened Results
  import opened Classifiers
  import JavaLib

  /** A copy of `x` whose first L values read 0.0, so that the classifier
      cannot see the answer. */
  function Mask(x: Instance, L: nat): (m: Instance)
    requires L <= |x|
    ensures |m| == |x|
    ensures forall v :: 0 <= v < L ==> m[v] == 0.0
    ensures forall v :: L <= v < |x| ==> m[v] == x[v]
  {
    JavaLib.Zeros(L) + x[L..]
  }

  /** The prediction stored for one test instance: query the classifier on the
      masked copy and, for a multi-target classifier, keep entries `[L, 2L)`.
      An instance with fewer than L values makes `setValue` throw. */
  function RowPrediction(multiTarget: bool, m: Model, L: nat, x: Instance): Outcome<seq<real>> {
    if |x| < L then
      Failure("ArrayIndexOutOfBoundsException")
    else
      var y := m.predict(Mask(x, L));
      if multiTarget then JavaLib.CopyOfRange(y, L, 2 * L) else Success(y)
  }

  /** The rows of the tester's loop over `xs`, added in input order; the first
      instance that fails aborts the whole run. */
  function TestRows(multiTarget: bool, m: Model, L: nat, xs: seq<Instance>): (r: Outcome<Result>)
    ensures r.Success? <==> forall i :: 0 <= i < |xs| ==> RowPrediction(multiTarget, m, L, xs[i]).Success?
    ensures r.Success? ==> r.value.labelCount == L && r.value.info == map[] && r.value.values == map[]
    ensures r.Success? ==> |r.value.predictions| == |xs| && |r.value.truth| == |xs|
    ensures r.Success? ==> forall i :: 0 <= i < |xs| ==> L <= |xs[i]|
    ensures r.Success? ==> forall i :: 0 <= i < |xs| ==>
      r.value.predictions[i] == RowPrediction(multiTarget, m, L, xs[i]).value &&
      r.value.truth[i] == xs[i][..L]
    decreases |xs|
  {
    if |xs| == 0 then
      Success(NewResult(L))
    else
      var x := xs[|xs| - 1];
      var r :- TestRows(multiTarget, m, L, xs[..|xs| - 1]);
      var y :- RowPrediction(multiTarget, m, L, x);
      Success(r.AddResult(y, x))
  }

  /** `testClassifier`: one row per test instance, in input order. Each row's
      prediction is the classifier's answer on the masked instance (only its
      second half for a multi-target classifier) and its truth is the first L
      values of the unmasked instance. */
  function TestClassifier(h: Learner, m: Model, d: Dataset): (r: Outcome<Result>)
    ensures r.Success? <==> forall i :: 0 <= i < |d.instances| ==>
      d.classIndex <= |d.instances[i]| &&
      (h.multiTarget ==> d.classIndex <= |m.predict(Mask(d.instances[i], d.classIndex))|)
    ensures r.Success? ==>
      r.value.labelCount == d.classIndex && r.value.info == map[] && r.value.values == map[] &&
      |r.value.predictions| == |d.instances| && |r.value.truth| == |d.instances|
    ensures r.Success? ==> forall i :: 0 <= i < |d.instances| ==>
      r.value.truth[i] == d.instances[i][..d.classIndex]
    ensures r.Success? && !h.multiTarget ==> forall i :: 0 <= i < |d.instances| ==>
      r.value.predictions[i] == m.predict(Mask(d.instances[i], d.classIndex))
    ensures r.Success? && h.multiTarget ==> forall i :: 0 <= i < |d.instances| ==>
      |r.value.predictions[i]| == d.classIndex &&
      (2 * d.classIndex <= |m.predict(Mask(d.instances[i], d.classIndex))| ==>
         r.value.predictions[i] ==
         m.predict(Mask(d.instances[i], d.classIndex))[d.classIndex..2 * d.classIndex])
    ensures r.Success? && h.multiTarget ==>
      forall i, k :: 0 <= i < |d.instances| && 0 <= k < d.classIndex ==>
        var y := m.predict(Mask(d.instances[i], d.classIndex));
        r.value.predictions[i][k] == if d.classIndex + k < |y| then y[d.classIndex + k] else 0.0
  {
    TestRows(h.multiTarget, m, d.classIndex, d.instances)
  }

  /** `testClassifierM`: a threaded classifier answers for the whole test set
      at once and row i keeps answer i unchanged; any other classifier gives a
      Result with no rows at all. The batch is handed the test instances as
      they are, labels included, and no multi-target slicing is applied. */
  function TestClassifierM(h: Learner, m: Model, d: Dataset): (r: Outcome<Result>)
    ensures !h.threaded ==> r == Success(NewResult(d.classIndex))
    ensures h.threaded ==> (r.Success? <==>
      |d.instances| <= |m.predictBatch(d.instances)| &&
      forall i :: 0 <= i < |d.instances| ==> d.classIndex <= |d.instances[i]|)
    ensures h.threaded && r.Success? ==>
      r.value.labelCount == d.classIndex && r.value.info == map[] && r.value.values == map[] &&
      |r.value.predictions| == |d.instances| && |r.value.truth| == |d.instances| &&
      forall i :: 0 <= i < |d.instances| ==>
        r.value.predictions[i] == m.predictBatch(d.instances)[i] &&
        r.value.truth[i] == d.instances[i][..d.classIndex]
  {
    var L := d.classIndex;
    if !h.threaded then
      Success(NewResult(L))
    else
      var ys := m.predictBatch(d.instances);
      if |ys| < |d.instances| then
        Failure("ArrayIndexOutOfBoundsException")
      else if exists i :: 0 <= i < |d.instances| && |d.instances[i]| < L then
        Failure("ArrayIndexOutOfBoundsException")
      else
        Success(Result(L, ys[..|d.instances|], LabelRows(d.instances, L), map[], map[]))
  }

  /** Masking is blind to the labels: two instances that agree beyond the
      first L values mask to the same vector, and masking twice is masking once. */
  lemma MaskHidesLabels(x: Instance, y: Instance, L: nat)
    requires L <= |x| && |x| == |y| && x[L..] == y[L..]
    ensures Mask(x, L) == Mask(y, L)
    ensures Mask(Mask(x, L), L) == Mask(x, L)
  {
  }

  /** No leakage: the stored predictions do not depend on the test set's true
      labels. Two test sets that differ only in label values give the same
      prediction rows. */
  lemma PredictionsIgnoreTrueLabels(h: Learner, m: Model, d1: Dataset, d2: Dataset)
    requires d1.classIndex == d2.classIndex && |d1.instances| == |d2.instances|
    requires forall i :: 0 <= i < |d1.instances| ==>
      |d1.instances[i]| == |d2.instances[i]| &&
      (d1.classIndex <= |d1.instances[i]| ==>
         d1.instances[i][d1.classIndex..] == d2.instances[i][d1.classIndex..])
    ensures TestClassifier(h, m, d1).Success? <==> TestClassifier(h, m, d2).Success?
    ensures TestClassifier(h, m, d1).Success? ==>
      TestClassifier(h, m, d1).value.predictions == TestClassifier(h, m, d2).value.predictions
  {
  }

  /** The batched path is only a throughput optimisation when the batch answer
      for each instance equals the single answer on its masked copy: then, for
      a multi-label classifier, both paths store the same rows. */
  lemma {:induction false} BatchedAgreesWithSingle(h: Learner, m: Model, d: Dataset)
    requires h.threaded && !h.multiTarget
    requires |m.predictBatch(d.instances)| == |d.instances|
    requires forall i :: 0 <= i < |d.instances| ==>
      d.classIndex <= |d.instances[i]| &&
      m.predictBatch(d.instances)[i] == m.predict(Mask(d.instances[i], d.classIndex))
    ensures TestClassifierM(h, m, d).Success? && TestClassifier(h, m, d).Success?
    ensures TestClassifierM(h, m, d) == TestClassifier(h, m, d)
  {
    var a := TestClassifierM(h, m, d).value;
    var b := TestClassifier(h, m, d).value;
    assert a.predictions == b.predictions;
    assert a.truth == b.truth;
  }

  /** A multi-target classifier answering `[0.2, 0.8, 1, 0]` for L = 2 has
      `[1, 0]` stored as its prediction. */
  lemma MultiTargetScenario(h: Learner, m: Model, d: Dataset)
    requires h.multiTarget && d.classIndex == 2 && |d.instances| == 1 && |d.instances[0]| == 3
    requires m.predict(Mask(d.instances[0], 2)) == [0.2, 0.8, 1.0, 0.0]
    ensures TestClassifier(h, m, d).Success?
    ensures TestClassifier(h, m, d).value.predictions == [[1.0, 0.0]]
  {
    var r := TestClassifier(h, m, d).value;
    assert [0.2, 0.8, 1.0, 0.0][2..4] == [1.0, 0.0];
    assert r.predictions[0] == [1.0, 0.0];
  }
}
